=== FILE: README.md ===
# Mouse double-click filter: debounce and lifecycle model

This is a Dafny model of the interception-and-debounce engine of a desktop
utility that suppresses spurious repeat mouse-button presses from worn
switches. It has three layers:

- **Debounce decision** (`Debounce`, `DebounceTrace`). `should_block` runs
  inside the macOS event-tap callback. Only the three button-down event
  types are examined. Elapsed time is floored to whole milliseconds. A press
  is blocked when that time is strictly below the threshold. A blocked press
  increments the counter and does not move the reference instant. Time is a
  `nat` in nanoseconds, and the clock read is an input. The trace theorems
  show that replaying `should_block` over a stream of presses, with the
  click lock always taken, blocks exactly the presses whose floored delta
  from the most recent allowed press is below the threshold, and that this
  rule has exactly one solution. A press whose lock attempt fails is
  allowed but does not become the reference.
- **Hook lifecycle** (`Hook`). This is one datatype with two variants, the
  two implementations of `HookControl`: the macOS event-tap hook and the
  unsupported stand-in. The accessibility permission check and the
  readiness handshake with the tap thread are inputs. The worker thread and
  its stop channel are modelled as present or absent.
- **Filter service** (`FilterService`, `FilterApi`). This covers
  `MouseFilterService` and the public entry points that take its global
  mutex. Whether the mutex can be taken is an input of each call. The
  outward notifications (`filter_status_changed`, `click_blocked`) are an
  append-only log. Sequences of operations and delivered events are run
  from boot. An invariant of every reachable state is proved, along with
  the counter-continuity and unsupported-platform scenarios.

`FilterTypes` holds the error taxonomy, the status snapshot and the tagged
serialized form of an error. `Wrappers` holds `Option` and `Result`.

Behaviour of the code a reader may not expect:

- One reference instant is shared by all three button classes. A right
  press just after a left press is therefore debounced against it
  (`ButtonClassIrrelevant`). The model does not keep a separate stream per
  class.
- A fresh start resets the captured blocked-click baseline to zero. The
  count is not carried across stop/start cycles.
- `update_threshold` does not attach the application handle. If no start or
  stop has ever attached one, a successful update emits no status event.
- The hook stores the requested threshold before it waits for readiness. A
  start that fails on readiness therefore leaves the new threshold in the
  hook it discards.

## Model

| member | source | states |
|---|---|---|
| FilterTypes.Tag | src-tauri/src/mouse_filter/mod.rs:34-59 | an error serializes as its camel-cased variant name; only `Platform` carries a message, and it is the error's own message |
| FilterTypes.TagRoundTrip | src-tauri/src/mouse_filter/mod.rs:45-58 | every error can be read back from its tag |
| FilterTypes.TagInjective | src-tauri/src/mouse_filter/mod.rs:45-58 | distinct errors never share a tag |
| Debounce.DeltaMs | src-tauri/src/mouse_filter/macos.rs:67-72 | the delta is the whole number of milliseconds elapsed (floor of the nanoseconds over 10^6, after truncation to whole microseconds), and zero when `now` is not after the reference |
| Debounce.ShouldBlock | src-tauri/src/mouse_filter/macos.rs:59-80 | other event types and a lock failure allow and change nothing; blocked iff a reference exists and the floored delta is below the threshold; a blocked press adds exactly one to the counter, reports its delta and keeps the reference; an allowed press becomes the reference; the threshold is never written |
| Debounce.FirstClickAllowed | src-tauri/src/mouse_filter/macos.rs:70-79 | with no recorded press, a button-down press is allowed and recorded as the reference |
| Debounce.ZeroThresholdNeverBlocks | src-tauri/src/mouse_filter/macos.rs:73 | threshold 0 never blocks |
| Debounce.ExactThresholdAllowed | src-tauri/src/mouse_filter/macos.rs:71-73 | a press exactly `threshold` ms after the reference is allowed |
| Debounce.JustUnderThresholdBlocked | src-tauri/src/mouse_filter/macos.rs:71-75 | a press one nanosecond short of the threshold is blocked with delta `threshold - 1` |
| Debounce.SubMicrosecondsCount | src-tauri/src/mouse_filter/macos.rs:67-73 | presses 999 ns and 100 ms after an origin are 99 whole ms apart, so at 100 ms the second is blocked |
| Debounce.ButtonClassIrrelevant | src-tauri/src/mouse_filter/macos.rs:60-66 | left, right and other button-down presses get the same decision |
| Debounce.EventMask | src-tauri/src/mouse_filter/macos.rs:213-218 | among the 64 mask bits, exactly the three button-down types are set |
| Debounce.TapCallback | src-tauri/src/mouse_filter/macos.rs:153-165 | a press is suppressed iff it is blocked, in which case its delta is emitted once; otherwise it passes with nothing emitted; the counter grows by the number of emissions |
| DebounceTrace.Replay | src-tauri/src/mouse_filter/macos.rs:59-80 | replaying a stream gives one flag per press, keeps the threshold, and adds the number of blocked presses to the counter |
| DebounceTrace.ReferenceIsLastAllowed | src-tauri/src/mouse_filter/macos.rs:70-78 | the reference for press i is the instant of the last allowed press before i, or the initial reference if every earlier press was blocked |
| DebounceTrace.ReplayIsDebounced | src-tauri/src/mouse_filter/macos.rs:59-80 | press i is blocked iff its floored delta from the last allowed press (or the initial reference) is below the threshold; the final reference is the last allowed press |
| DebounceTrace.DebouncedUnique | src-tauri/src/mouse_filter/macos.rs:70-78 | the reference rule determines the blocked flags uniquely |
| DebounceTrace.ReplayCharacterized | src-tauri/src/mouse_filter/macos.rs:59-80 | a flag sequence obeys the reference rule iff it is the replay's |
| DebounceTrace.OtherEventsIgnored | src-tauri/src/mouse_filter/macos.rs:60-66 | a mixed event stream ends in the same state as its button-down instants alone |
| DebounceTrace.BlockedClickKeepsReference | src-tauri/src/mouse_filter/macos.rs:73-78 | at 100 ms, presses at 0, 60 and 110 ms give allowed, blocked, allowed: the third is measured from the first |
| DebounceTrace.ThresholdBoundary | src-tauri/src/mouse_filter/macos.rs:71-73 | at 100 ms, a repeat 100 ms later is allowed and a repeat one nanosecond earlier is blocked |
| Hook.New | src-tauri/src/mouse_filter/macos.rs:84-95 | on macOS a hook starts with threshold 100, counter 0, no reference and no thread; elsewhere `new` fails with `Unsupported` |
| Hook.Start | src-tauri/src/mouse_filter/macos.rs:97-128 | `AlreadyRunning` if a worker exists; a `Platform` error with no change when permission is missing; a `Platform` error with no thread kept when readiness fails or times out; success iff ready, keeping worker and stop channel, with the requested threshold stored |
| Hook.Stop | src-tauri/src/mouse_filter/macos.rs:130-138 | always succeeds on macOS and leaves no worker and no stop channel, with the shared state untouched |
| Hook.SetThreshold | src-tauri/src/mouse_filter/macos.rs:140-145 | changes only the threshold |
| Hook.BlockedClicks | src-tauri/src/mouse_filter/macos.rs:147-149 | the live counter, and 0 for the stand-in |
| Hook.Deliver | src-tauri/src/mouse_filter/macos.rs:159-164 | a callback runs iff the tap is installed, and then it is the tap callback on the shared state; otherwise the hook is unchanged; the counter grows by the emitted notifications |
| Hook.PairedPreserved | src-tauri/src/mouse_filter/macos.rs:117-136 | worker and stop channel are kept or dropped together by every operation |
| Hook.FailedStartLeavesNothing | src-tauri/src/mouse_filter/macos.rs:121-127 | a failed start leaves no tap thread and no stop channel |
| Hook.StopIdempotent | src-tauri/src/mouse_filter/macos.rs:130-138 | stopping twice is the same as stopping once |
| Hook.StartStopRoundTrip | src-tauri/src/mouse_filter/macos.rs:97-138 | start then stop returns the hook to where it was except for the new threshold |
| Hook.UnsupportedRefusesAll | src-tauri/src/mouse_filter/unsupported.rs:5-28 | the stand-in fails `new`, `start`, `stop` and `set_threshold` with `Unsupported`, reports 0 blocked clicks and never runs a callback |
| FilterService.Default | src-tauri/src/mouse_filter/mod.rs:119-129 | the default service reports not running, threshold 100, 0 blocked, with no hook and no handle |
| FilterService.AttachHandle | src-tauri/src/mouse_filter/mod.rs:132-134 | only the handle changes |
| FilterService.Start | src-tauri/src/mouse_filter/mod.rs:136-153 | while running, retunes the existing hook and records the threshold; while stopped, fails `ServiceUnavailable` without a handle and `Unsupported` off macOS, and every failure leaves the service unchanged; a fresh start succeeds iff the hook starts, and then reports running, the new threshold and 0 blocked; a failed hook start returns the hook's own `Platform` error, with the permission message or the initialization message |
| FilterService.Stop | src-tauri/src/mouse_filter/mod.rs:155-165 | `NotRunning` with no change when stopped; otherwise the hook is removed, its final count becomes the baseline and running clears; a failing hook stop loses the hook and keeps running set |
| FilterService.UpdateThreshold | src-tauri/src/mouse_filter/mod.rs:167-175 | always records the threshold; forwards it only while running; never changes running or the baseline |
| FilterService.Snapshot | src-tauri/src/mouse_filter/mod.rs:177-191 | running and threshold as stored; the live hook count while running with a hook, the baseline otherwise |
| FilterService.Deliver | src-tauri/src/mouse_filter/macos.rs:159-164 | a callback runs iff the held hook's tap is installed, and the held hook's state then becomes the callback's next state; with no callback the service is unchanged; an event touches only the hook's state; while running, the reported count grows by the emitted notifications |
| FilterApi.Boot | src-tauri/src/mouse_filter/mod.rs:15-17 | the singleton starts on the build platform with an empty log and the default status, in a state satisfying the reachable-state invariant |
| FilterApi.EmitStatus | src-tauri/src/mouse_filter/mod.rs:193-197 | one status event carrying the snapshot, and only when a handle is held |
| FilterApi.Finish | src-tauri/src/mouse_filter/mod.rs:76-79 | an error returns before anything is emitted; success returns the fresh snapshot and emits it |
| FilterApi.PublicStart | src-tauri/src/mouse_filter/mod.rs:73-80 | a lock failure gives `ServiceUnavailable` with no change; otherwise the handle is attached and the service starts, and the call succeeds iff the service start does and returns its error unchanged; on success the returned snapshot is running with the new threshold and is emitted exactly once |
| FilterApi.PublicStop | src-tauri/src/mouse_filter/mod.rs:82-89 | a lock failure gives `ServiceUnavailable` with no change; otherwise the call succeeds iff the service stop does and returns its error unchanged; on success the returned snapshot is not running and is emitted exactly once; errors emit nothing |
| FilterApi.PublicUpdateThreshold | src-tauri/src/mouse_filter/mod.rs:91-97 | a lock failure gives `ServiceUnavailable`; otherwise the call succeeds iff the service update does and returns its error unchanged; on success the snapshot carries the new threshold and is emitted iff a handle is held |
| FilterApi.PublicStatus | src-tauri/src/mouse_filter/mod.rs:99-109 | never fails: the snapshot, or `{false, 100, 0}` when the lock is unavailable |
| FilterApi.BlockedNotices | src-tauri/src/mouse_filter/mod.rs:221-225 | one `click_blocked` per delta, in order |
| FilterApi.DeliverEvent | src-tauri/src/mouse_filter/macos.rs:159-162 | a delivered event appends exactly one `click_blocked` notification, carrying the delta from the reference, when the tap suppresses it, and leaves the log unchanged otherwise |
| FilterApi.InvPreserved | src-tauri/src/mouse_filter/mod.rs:136-175 | every operation preserves the invariant: off macOS never running, no hook, 0 baseline; on macOS a hook with a live tap is held exactly while running, and its threshold equals the remembered one |
| FilterApi.ExecPreservesInv | src-tauri/src/mouse_filter/mod.rs:73-97 | every state reachable by a sequence of calls and events keeps the invariant, and the log only grows |
| FilterApi.LogGrows | src-tauri/src/mouse_filter/mod.rs:193-197 | a single step never rewrites what was emitted |
| FilterApi.UnsupportedNeverRuns | src-tauri/src/mouse_filter/unsupported.rs:6-11 | off macOS, after any history, start returns `Unsupported` and status shows not running with 0 blocked |
| FilterApi.RestartReconfigures | src-tauri/src/mouse_filter/mod.rs:136-143 | start while running returns running with the new threshold and the same count, keeping the same hook |
| FilterApi.StopCapturesCount | src-tauri/src/mouse_filter/mod.rs:155-165 | stop while running reports not running with the count the live hook had |
| FilterApi.StopWhenStoppedChangesNothing | src-tauri/src/mouse_filter/mod.rs:156-158 | stop while stopped returns `NotRunning`, emits nothing and leaves the status unchanged |
| FilterApi.StoppedUpdateOnlyThreshold | src-tauri/src/mouse_filter/mod.rs:167-175 | while stopped, an update changes only the threshold, and status then shows it with the same running flag and count |
| FilterApi.CountNeverDrops | src-tauri/src/mouse_filter/mod.rs:136-191 | every step except a successful fresh start (the only place the baseline is reset) leaves the reported blocked count the same or higher, failed start attempts included |
| FilterApi.CountNeverDropsExec | src-tauri/src/mouse_filter/mod.rs:136-191 | over any history of calls and events without a successful fresh start, the reported blocked count never drops |
| FilterApi.ClickCountsOnce | src-tauri/src/mouse_filter/macos.rs:73-75 | while running, the reported count grows by exactly the number of `click_blocked` notifications |
| FilterApi.BlockedClickStep | src-tauri/src/mouse_filter/macos.rs:73-76 | a press inside the window counts once, is announced with its delta and keeps the reference |
| FilterApi.AllowedClickStep | src-tauri/src/mouse_filter/macos.rs:78-79 | a press outside the window is silent and becomes the reference |
| FilterApi.FreshStartStep | src-tauri/src/mouse_filter/mod.rs:144-151 | a fresh start with permission and a ready tap holds a new hook, baseline 0, and emits `{true, 100, 0}` |
| FilterApi.StopStep | src-tauri/src/mouse_filter/mod.rs:155-165 | stopping a live hook captures its count and emits the stopped status |
| FilterApi.FirstRunEffect | src-tauri/src/mouse_filter/mod.rs:148-161 | start, a press, three repeats, stop: 3 blocked notices and a final status of 3 |
| FilterApi.SecondRunEffect | src-tauri/src/mouse_filter/mod.rs:148-161 | a restart reports 0, and two repeats then stop report 2 |
| FilterApi.CounterContinuity | src-tauri/src/mouse_filter/mod.rs:148-161 | the full emitted log of start, 3 blocked, stop, start, 2 blocked, stop |

## Left out

- The Core Graphics and Core Foundation calls in `run_loop` are foreign
  calls. Only their readiness outcome is modelled, as the `Readiness`
  input (see also the `Hook.Deliver` line below). These calls are tap
  creation, the run-loop source, the 0.1 s run-loop slices and the raw
  user-data pointer.
- Threads, channels, `recv_timeout`, `join`, atomic memory orderings and
  mutex poisoning are not modelled. A worker is present or absent. Whether
  a lock can be taken is a boolean input of each call. Lock state does not
  persist between calls.
- The model has no concurrent interleaving. In particular, a tap thread
  that becomes ready just after the two-second wait may see events before
  it is stopped and joined; the model does not cover this.
- `AXIsProcessTrusted` and the spawned `open` of the System Settings pane
  are OS and process I/O. They are modelled as the `permissionGranted`
  input.
- The Tauri `emit` transport is modelled as an appended log. The
  human-readable `Display` messages of `FilterError` are not modelled; only
  the serialized tag is.
- The command layer, the tray, menu and window wiring, the autostart plugin
  and the TypeScript IPC wrappers are not part of this model.
- Debounce.ShouldBlock: the threshold and counter are unbounded `nat`s. The
  model does not include the 64-bit wrap-around of `fetch_add` on the
  counter or the `u64` range of the threshold. The microsecond-to-64-bit
  truncation of the elapsed time is modelled.
- Hook.Deliver: a hook that keeps its worker is treated as a tap that
  receives every event. macOS can disable an installed tap after a timeout
  or user input. It then sends a tap-disabled event, which the callback
  passes through, and nothing enables the tap again. From then on the
  service still reports running but filters and counts nothing. The model
  does not cover this.
- Debounce.DeltaMs: instants are whole nanoseconds since an arbitrary
  origin. How the platform clock produces an `Instant` is not modelled.

=== FILE: debounce.dfy ===
/**
  The debounce decision the event tap evaluates on every delivered event,
  the event mask the tap is installed with, and the tap callback's
  allow/suppress verdict. Time is an instant in nanoseconds; the clock
  read of the callback is an input.
 */
module Debounce {
  import opened Wrappers

  /** Core Graphics event type codes of the three button-down events. */
  const LeftMouseDown: nat := 1
  const RightMouseDown: nat := 3
  const OtherMouseDown: nat := 25

  /** The event mask is a 64-bit word; `as u64` truncates modulo this. */
  const U64Modulus: nat := 0x1_0000_0000_0000_0000

  predicate IsButtonDown(ty: nat)
  {
    ty == LeftMouseDown || ty == RightMouseDown || ty == OtherMouseDown
  }

  /**
    The state shared between the control side and the tap callback:
    the active threshold, the cumulative blocked counter and the instant
    of the last accepted click.
   */
  datatype HookState = HookState(thresholdMs: nat, blocked: nat, lastClick: Option<nat>)

  /** Nanoseconds in one millisecond; instants are nanoseconds since an arbitrary origin. */
  const NanosPerMs: nat := 1_000_000

  /** `Instant::duration_since` saturates to zero for an earlier `now`. */
  function ElapsedNanos(prev: nat, now: nat): (e: nat)
  {
    if now >= prev then now - prev else 0
  }

  /**
    Whole milliseconds between two instants: `as_micros` drops the sub-
    microsecond part, the `as u64` cast keeps the low 64 bits, and the
    division by 1000 drops the sub-millisecond part.
   */
  function DeltaMs(prev: nat, now: nat): (d: nat)
    ensures ElapsedNanos(prev, now) / 1000 < U64Modulus ==>
              d * NanosPerMs <= ElapsedNanos(prev, now) < d * NanosPerMs + NanosPerMs
    ensures now <= prev ==> d == 0
  {
    var micros := ElapsedNanos(prev, now) / 1000;
    var d := (micros % U64Modulus) / 1000;
    assert micros < U64Modulus ==> d * 1000 <= micros < d * 1000 + 1000;
    d
  }

  /** A click at `now` falls inside the window opened by `reference`. */
  predicate InWindow(thresholdMs: nat, reference: Option<nat>, now: nat)
  {
    reference.Some? && DeltaMs(reference.value, now) < thresholdMs
  }

  /** What `should_block` returns, with the state it leaves behind. */
  datatype Decision = Decision(blockedDelta: Option<nat>, next: HookState)

  /**
    `should_block`: whether the event of type `ty` arriving at `now` is
    blocked (with its delta), given whether the last-click lock could be
    acquired.
   */
  function ShouldBlock(s: HookState, ty: nat, now: nat, lockOk: bool): (d: Decision)
    // only button-down events are examined, and a lock failure allows
    ensures !IsButtonDown(ty) || !lockOk ==> d == Decision(None, s)
    // the threshold is read, never written
    ensures d.next.thresholdMs == s.thresholdMs
    // blocked exactly when inside the window of the last accepted click
    ensures d.blockedDelta.Some? <==>
              IsButtonDown(ty) && lockOk && InWindow(s.thresholdMs, s.lastClick, now)
    // a blocked click counts once, reports its delta and keeps the reference
    ensures d.blockedDelta.Some? ==>
              && d.blockedDelta.value == DeltaMs(s.lastClick.value, now)
              && d.blockedDelta.value < s.thresholdMs
              && d.next == s.(blocked := s.blocked + 1)
    // an evaluated click that is allowed becomes the new reference
    ensures IsButtonDown(ty) && lockOk && d.blockedDelta.None? ==>
              d.next == s.(lastClick := Some(now))
  {
    if !IsButtonDown(ty) then Decision(None, s)
    else if !lockOk then Decision(None, s)
    else match s.lastClick
      case Some(prev) =>
        var delta := DeltaMs(prev, now);
        if delta < s.thresholdMs then Decision(Some(delta), s.(blocked := s.blocked + 1))
        else Decision(None, s.(lastClick := Some(now)))
      case None => Decision(None, s.(lastClick := Some(now)))
  }

  /** With no recorded click, a button-down event is allowed and recorded. */
  lemma FirstClickAllowed(s: HookState, ty: nat, now: nat)
    requires IsButtonDown(ty) && s.lastClick.None?
    ensures ShouldBlock(s, ty, now, true) == Decision(None, s.(lastClick := Some(now)))
  {
  }

  /** A zero threshold never blocks. */
  lemma ZeroThresholdNeverBlocks(s: HookState, ty: nat, now: nat, lockOk: bool)
    requires s.thresholdMs == 0
    ensures ShouldBlock(s, ty, now, lockOk).blockedDelta.None?
  {
  }

  /** An elapsed time of exactly the threshold is allowed (strict less-than). */
  lemma ExactThresholdAllowed(s: HookState, ty: nat, prev: nat)
    requires IsButtonDown(ty) && s.lastClick == Some(prev)
    requires s.thresholdMs * 1000 < U64Modulus
    ensures ShouldBlock(s, ty, prev + s.thresholdMs * NanosPerMs, true).blockedDelta.None?
  {
    assert ElapsedNanos(prev, prev + s.thresholdMs * NanosPerMs) / 1000 == s.thresholdMs * 1000;
  }

  /** One nanosecond short of the threshold is still blocked: the delta is floored. */
  lemma JustUnderThresholdBlocked(s: HookState, ty: nat, prev: nat)
    requires IsButtonDown(ty) && s.lastClick == Some(prev)
    requires 0 < s.thresholdMs && s.thresholdMs * 1000 < U64Modulus
    ensures ShouldBlock(s, ty, prev + s.thresholdMs * NanosPerMs - 1, true).blockedDelta
            == Some(s.thresholdMs - 1)
  {
    var e := s.thresholdMs * NanosPerMs - 1;
    assert ElapsedNanos(prev, prev + e) == e;
    assert e / 1000 == s.thresholdMs * 1000 - 1;
    assert (s.thresholdMs * 1000 - 1) / 1000 == s.thresholdMs - 1;
  }

  /**
    The sub-microsecond part of the reference instant counts: presses 999 ns
    and 100 ms after an origin are 99.999001 ms apart, so at 100 ms the
    second one is blocked with delta 99.
   */
  lemma SubMicrosecondsCount(s: HookState, ty: nat)
    requires IsButtonDown(ty) && s.thresholdMs == 100 && s.lastClick == Some(999)
    ensures ShouldBlock(s, ty, 100 * NanosPerMs, true).blockedDelta == Some(99)
  {
    assert ElapsedNanos(999, 100 * NanosPerMs) / 1000 == 99_999;
  }

  /**
    The three button-down classes share one reference instant: which class
    the event belongs to never changes the decision.
   */
  lemma ButtonClassIrrelevant(s: HookState, ty1: nat, ty2: nat, now: nat, lockOk: bool)
    requires IsButtonDown(ty1) && IsButtonDown(ty2)
    ensures ShouldBlock(s, ty1, now, lockOk) == ShouldBlock(s, ty2, now, lockOk)
  {
  }

  /** Bit `k` of a 64-bit event mask. */
  predicate MaskHas(mask: bv64, k: nat)
    requires k < 64
  {
    (mask >> k) & 1 == 1
  }

  /** `build_event_mask`: the tap is registered for exactly the button-down types. */
  function EventMask(): (mask: bv64)
    ensures forall k: nat :: k < 64 ==> (MaskHas(mask, k) <==> IsButtonDown(k))
  {
    (1 << LeftMouseDown) | (1 << RightMouseDown) | (1 << OtherMouseDown)
  }

  /** What the tap callback hands back to the OS. */
  datatype TapResult = PassThrough | Suppress

  /** One callback invocation: the verdict, the blocked notifications it emits, the new state. */
  datatype Callback = Callback(result: TapResult, emitted: seq<nat>, next: HookState)

  /**
    `tap_callback`: a blocked event emits its delta once and is suppressed;
    every other event is handed back unmodified with nothing emitted.
   */
  function TapCallback(s: HookState, ty: nat, now: nat, lockOk: bool): (c: Callback)
    ensures c.next == ShouldBlock(s, ty, now, lockOk).next
    ensures c.result == Suppress <==> IsButtonDown(ty) && lockOk && InWindow(s.thresholdMs, s.lastClick, now)
    ensures c.result == Suppress ==> c.emitted == [DeltaMs(s.lastClick.value, now)]
    ensures c.result == PassThrough ==> c.emitted == []
    ensures c.next.blocked == s.blocked + |c.emitted|
  {
    var d := ShouldBlock(s, ty, now, lockOk);
    match d.blockedDelta
    case Some(delta) => Callback(Suppress, [delta], d.next)
    case None => Callback(PassThrough, [], d.next)
  }
}

=== FILE: debounce_trace.dfy ===
/**
  The debounce decision over a whole stream of button-down clicks: the
  blocked flags `should_block` produces are exactly those of the reference
  rule "a click is blocked iff its floored delta from the most recent
  allowed click is below the threshold", and that rule determines them.
 */
module DebounceTrace {
  import opened Wrappers
  import opened Debounce

  /** Number of blocked clicks in a run. */
  function CountBlocked(flags: seq<bool>): (n: nat)
  {
    if |flags| == 0 then 0
    else CountBlocked(flags[..|flags| - 1]) + (if flags[|flags| - 1] then 1 else 0)
  }

  /**
    Feeds the button-down clicks at instants `ts` through `should_block`,
    in order, with the lock always acquired; returns one blocked flag per
    click and the final state.
   */
  function Replay(s: HookState, ts: seq<nat>): (r: (seq<bool>, HookState))
    ensures |r.0| == |ts|
    ensures r.1.thresholdMs == s.thresholdMs
    ensures r.1.blocked == s.blocked + CountBlocked(r.0)
  {
    if |ts| == 0 then ([], s)
    else
      var prior := Replay(s, ts[..|ts| - 1]);
      var d := ShouldBlock(prior.1, LeftMouseDown, ts[|ts| - 1], true);
      assert (prior.0 + [d.blockedDelta.Some?])[..|ts| - 1] == prior.0;
      (prior.0 + [d.blockedDelta.Some?], d.next)
  }

  /**
    The reference instant for click `i`: the instant of the most recent
    allowed click before it, or `start` when every earlier click was blocked.
   */
  function Reference(start: Option<nat>, ts: seq<nat>, blocked: seq<bool>, i: nat): (ref: Option<nat>)
    requires i <= |ts| && i <= |blocked|
  {
    if i == 0 then start
    else if !blocked[i - 1] then Some(ts[i - 1])
    else Reference(start, ts, blocked, i - 1)
  }

  /** The reference rule, stated independently of `should_block`. */
  ghost predicate Debounced(thresholdMs: nat, start: Option<nat>, ts: seq<nat>, blocked: seq<bool>)
  {
    && |blocked| == |ts|
    && forall i {:trigger Reference(start, ts, blocked, i)} :: 0 <= i < |ts| ==>
         (blocked[i] <==> InWindow(thresholdMs, Reference(start, ts, blocked, i), ts[i]))
  }

  /** `Reference` is what its name says: the last allowed click, else `start`. */
  lemma {:induction false} ReferenceIsLastAllowed(start: Option<nat>, ts: seq<nat>, blocked: seq<bool>, i: nat)
    requires i <= |ts| && i <= |blocked|
    ensures || (Reference(start, ts, blocked, i) == start && forall k :: 0 <= k < i ==> blocked[k])
            || (exists j :: 0 <= j < i && !blocked[j] && (forall k :: j < k < i ==> blocked[k])
                            && Reference(start, ts, blocked, i) == Some(ts[j]))
  {
    if i > 0 {
      if !blocked[i - 1] {
        assert Reference(start, ts, blocked, i) == Some(ts[i - 1]);
      } else {
        ReferenceIsLastAllowed(start, ts, blocked, i - 1);
      }
    }
  }

  /** `Reference` only looks at the clicks before `i`. */
  lemma {:induction false} ReferenceOfPrefix(
    start: Option<nat>, ts: seq<nat>, blocked: seq<bool>, ts': seq<nat>, blocked': seq<bool>, i: nat)
    requires i <= |ts| && i <= |blocked| && i <= |ts'| && i <= |blocked'|
    requires ts[..i] == ts'[..i] && blocked[..i] == blocked'[..i]
    ensures Reference(start, ts, blocked, i) == Reference(start, ts', blocked', i)
  {
    if i > 0 {
      assert blocked[i - 1] == blocked[..i][i - 1] == blocked'[i - 1];
      assert ts[i - 1] == ts[..i][i - 1] == ts'[i - 1];
      assert ts[..i - 1] == ts[..i][..i - 1];
      assert ts'[..i - 1] == ts'[..i][..i - 1];
      assert blocked[..i - 1] == blocked[..i][..i - 1];
      assert blocked'[..i - 1] == blocked'[..i][..i - 1];
      ReferenceOfPrefix(start, ts, blocked, ts', blocked', i - 1);
    }
  }

  /**
    The main trace theorem: replaying `should_block` yields flags that obey
    the reference rule measured from the initial reference, and the final
    reference instant is the last allowed click.
   */
  lemma {:induction false} ReplayIsDebounced(s: HookState, ts: seq<nat>)
    ensures Debounced(s.thresholdMs, s.lastClick, ts, Replay(s, ts).0)
    ensures Replay(s, ts).1.lastClick == Reference(s.lastClick, ts, Replay(s, ts).0, |ts|)
  {
    if |ts| > 0 {
      var n := |ts| - 1;
      var pre := ts[..n];
      var prior := Replay(s, pre);
      ReplayIsDebounced(s, pre);
      var flags := Replay(s, ts).0;
      var d := ShouldBlock(prior.1, LeftMouseDown, ts[n], true);
      assert flags == prior.0 + [d.blockedDelta.Some?];
      assert flags[..n] == prior.0;
      assert ts[..n] == pre;
      forall i | 0 <= i <= n
        ensures Reference(s.lastClick, ts, flags, i) == Reference(s.lastClick, pre, prior.0, i)
      {
        assert ts[..i] == pre[..i];
        assert flags[..i] == prior.0[..i];
        ReferenceOfPrefix(s.lastClick, ts, flags, pre, prior.0, i);
      }
      forall i | 0 <= i < |ts|
        ensures flags[i] <==> InWindow(s.thresholdMs, Reference(s.lastClick, ts, flags, i), ts[i])
      {
        if i < n {
          assert flags[i] == prior.0[i];
          assert ts[i] == pre[i];
        }
      }
    }
  }

  /** Two solutions that agree before click `i` agree on click `i` too. */
  lemma DebouncedStep(thresholdMs: nat, start: Option<nat>, ts: seq<nat>, b1: seq<bool>, b2: seq<bool>, i: nat)
    requires Debounced(thresholdMs, start, ts, b1) && Debounced(thresholdMs, start, ts, b2)
    requires i < |ts| && b1[..i] == b2[..i]
    ensures b1[i] == b2[i]
  {
    ReferenceOfPrefix(start, ts, b1, ts, b2, i);
  }

  /** The reference rule has exactly one solution for a given stream. */
  lemma DebouncedUnique(thresholdMs: nat, start: Option<nat>, ts: seq<nat>, b1: seq<bool>, b2: seq<bool>)
    requires Debounced(thresholdMs, start, ts, b1) && Debounced(thresholdMs, start, ts, b2)
    ensures b1 == b2
  {
    var i := 0;
    while i < |ts|
      invariant 0 <= i <= |ts|
      invariant b1[..i] == b2[..i]
    {
      DebouncedStep(thresholdMs, start, ts, b1, b2, i);
      assert b1[..i + 1] == b1[..i] + [b1[i]];
      assert b2[..i + 1] == b2[..i] + [b2[i]];
      i := i + 1;
    }
    assert b1 == b1[..|ts|] && b2 == b2[..|ts|];
  }

  /** Hence the replay is the only flag sequence the reference rule admits. */
  lemma ReplayCharacterized(s: HookState, ts: seq<nat>, blocked: seq<bool>)
    ensures Debounced(s.thresholdMs, s.lastClick, ts, blocked) <==> blocked == Replay(s, ts).0
  {
    ReplayIsDebounced(s, ts);
    if Debounced(s.thresholdMs, s.lastClick, ts, blocked) {
      DebouncedUnique(s.thresholdMs, s.lastClick, ts, blocked, Replay(s, ts).0);
    }
  }

  /** A delivered event: its Core Graphics type code and arrival instant. */
  datatype Event = Event(ty: nat, at: nat)

  /** Feeds arbitrary events through `should_block`, lock always acquired. */
  function ReplayEvents(s: HookState, evs: seq<Event>): (r: HookState)
  {
    if |evs| == 0 then s
    else ShouldBlock(ReplayEvents(s, evs[..|evs| - 1]), evs[|evs| - 1].ty, evs[|evs| - 1].at, true).next
  }

  /** The instants of the button-down events, in order. */
  function ButtonDownTimes(evs: seq<Event>): (ts: seq<nat>)
    ensures |ts| <= |evs|
  {
    if |evs| == 0 then []
    else
      var e := evs[|evs| - 1];
      ButtonDownTimes(evs[..|evs| - 1]) + (if IsButtonDown(e.ty) then [e.at] else [])
  }

  /**
    Other event types and the button class are invisible to the debounce:
    a mixed stream ends in the same state as its button-down instants alone.
   */
  lemma {:induction false} OtherEventsIgnored(s: HookState, evs: seq<Event>)
    ensures ReplayEvents(s, evs) == Replay(s, ButtonDownTimes(evs)).1
  {
    if |evs| > 0 {
      var pre := evs[..|evs| - 1];
      var e := evs[|evs| - 1];
      OtherEventsIgnored(s, pre);
      if IsButtonDown(e.ty) {
        var ts := ButtonDownTimes(evs);
        assert ts == ButtonDownTimes(pre) + [e.at];
        assert ts[..|ts| - 1] == ButtonDownTimes(pre);
        ButtonClassIrrelevant(ReplayEvents(s, pre), e.ty, LeftMouseDown, e.at, true);
      } else {
        assert ButtonDownTimes(evs) == ButtonDownTimes(pre);
      }
    }
  }

  /**
    With a 100 ms threshold, clicks at 0, 60 and 110 ms: the second is
    blocked, and the third is measured from the first, so it is allowed
    even though it is only 50 ms after the second.
   */
  lemma BlockedClickKeepsReference()
    ensures Replay(HookState(100, 0, None), [0, 60_000_000, 110_000_000]).0 == [false, true, false]
  {
    var s := HookState(100, 0, None);
    assert [0, 60_000_000, 110_000_000][..2] == [0, 60_000_000];
    assert [0, 60_000_000][..1] == [0];
    assert [0][..0] == [];
    assert Replay(s, [0]).1 == s.(lastClick := Some(0));
    assert Replay(s, [0, 60_000_000]).1 == s.(lastClick := Some(0), blocked := 1);
  }

  /** Exactly 100 ms later is allowed; one nanosecond less is blocked. */
  lemma ThresholdBoundary()
    ensures Replay(HookState(100, 0, None), [0, 100_000_000]).0 == [false, false]
    ensures Replay(HookState(100, 0, None), [0, 99_999_999]).0 == [false, true]
  {
    assert [0, 100_000_000][..1] == [0];
    assert [0, 99_999_999][..1] == [0];
    assert [0][..0] == [];
  }
}

=== FILE: filter_types.dfy ===
/**
  The value types shared by the hook and the service: the error taxonomy,
  the status snapshot, and the tagged form in which an error crosses the
  command boundary.
 */
module FilterTypes {
  import opened Wrappers

  /** `FilterError`: each value is terminal for the call that returns it. */
  datatype FilterError =
    | AlreadyRunning
    | NotRunning
    | Unsupported
    | ServiceUnavailable
    | Platform(message: string)

  /** The outcome of an operation that returns `Result<(), FilterError>`. */
  type Outcome = Result<(), FilterError>

  /** `FilterStatus`, produced fresh on every query. */
  datatype FilterStatus = FilterStatus(running: bool, thresholdMs: nat, blockedClicks: nat)

  /** The threshold a fresh hook and a fresh service start from. */
  const DefaultThresholdMs: nat := 100

  /** The status reported when nothing else is known. */
  const DefaultStatus: FilterStatus := FilterStatus(false, DefaultThresholdMs, 0)

  /**
    The adjacently tagged serialized form of an error: `name` is the
    camel-cased variant name and `message` is present only for `Platform`.
   */
  datatype ErrorTag = ErrorTag(name: string, message: Option<string>)

  function Tag(e: FilterError): (t: ErrorTag)
    ensures t.message.Some? <==> e.Platform?
    ensures e.Platform? ==> t == ErrorTag("platform", Some(e.message))
  {
    match e
    case AlreadyRunning => ErrorTag("alreadyRunning", None)
    case NotRunning => ErrorTag("notRunning", None)
    case Unsupported => ErrorTag("unsupported", None)
    case ServiceUnavailable => ErrorTag("serviceUnavailable", None)
    case Platform(m) => ErrorTag("platform", Some(m))
  }

  /** Reads a tagged error back; `None` for a name no variant carries. */
  function Untag(t: ErrorTag): (e: Option<FilterError>)
  {
    match (t.name, t.message)
    case ("alreadyRunning", None) => Some(AlreadyRunning)
    case ("notRunning", None) => Some(NotRunning)
    case ("unsupported", None) => Some(Unsupported)
    case ("serviceUnavailable", None) => Some(ServiceUnavailable)
    case ("platform", Some(m)) => Some(Platform(m))
    case _ => None
  }

  /** Tagging loses nothing: the error can be read back from its tag. */
  lemma TagRoundTrip(e: FilterError)
    ensures Untag(Tag(e)) == Some(e)
  {
  }

  /** Distinct errors never serialize to the same tag. */
  lemma TagInjective(e1: FilterError, e2: FilterError)
    ensures Tag(e1) == Tag(e2) ==> e1 == e2
  {
    TagRoundTrip(e1);
    TagRoundTrip(e2);
  }
}

=== FILE: hook.dfy ===
/**
  The platform hook behind the `HookControl` capability: the macOS event-tap
  hook and the unsupported stand-in used on every other platform. The
  accessibility permission check and the readiness handshake with the tap
  thread are inputs; the worker thread and its stop channel are present or
  absent.
 */
module Hook {
  import opened Wrappers
  import opened FilterTypes
  import opened Debounce

  /** What the readiness channel yields within the two-second wait. */
  datatype Readiness =
    | Ready    // the tap was created, added to the run loop and enabled
    | Failed   // the tap thread reported that the tap could not be created
    | Timeout  // nothing arrived before the wait ran out

  /** The environment a `start` call meets. */
  datatype StartEnv = StartEnv(permissionGranted: bool, readiness: Readiness)

  /** Which implementation the build selects. */
  datatype Platform = MacOS | OtherPlatform

  const PermissionMessage: string :=
    "macOS Accessibility permission required. Enable in System Settings > Privacy & Security > Accessibility, then relaunch."
  const InitFailedMessage: string := "unable to initialize macOS mouse hook"

  /** The two implementations of `HookControl`. */
  datatype Hook =
    | MacHook(state: HookState, hasWorker: bool, hasStopper: bool)
    | UnsupportedHook

  /** A hook operation's result together with the hook it leaves. */
  datatype HookStep = HookStep(outcome: Outcome, hook: Hook)

  /** The event tap is installed exactly while a tap thread is kept. */
  predicate TapInstalled(h: Hook)
  {
    h.MacHook? && h.hasWorker
  }

  /** `new`: a fresh macOS hook, or `Unsupported` on any other platform. */
  function New(p: Platform): (r: Result<Hook, FilterError>)
    ensures p == OtherPlatform <==> r == Failure(Unsupported)
    ensures r.Success? ==>
              && r.value.MacHook?
              && r.value.state == HookState(DefaultThresholdMs, 0, None)
              && !r.value.hasWorker && !r.value.hasStopper
  {
    match p
    case MacOS => Success(MacHook(HookState(DefaultThresholdMs, 0, None), false, false))
    case OtherPlatform => Failure(Unsupported)
  }

  /** `start`: install the tap with the requested threshold. */
  function Start(h: Hook, thresholdMs: nat, env: StartEnv): (r: HookStep)
    ensures h.UnsupportedHook? ==> r == HookStep(Failure(Unsupported), h)
    ensures TapInstalled(h) ==> r == HookStep(Failure(AlreadyRunning), h)
    ensures h.MacHook? && !h.hasWorker && !env.permissionGranted ==>
              r == HookStep(Failure(Platform(PermissionMessage)), h)
    // readiness false or timed out: the threshold was already stored, no thread is kept
    ensures h.MacHook? && !h.hasWorker && env.permissionGranted && env.readiness != Ready ==>
              r == HookStep(Failure(Platform(InitFailedMessage)), h.(state := h.state.(thresholdMs := thresholdMs)))
    ensures r.outcome.Success? <==>
              h.MacHook? && !h.hasWorker && env.permissionGranted && env.readiness == Ready
    ensures r.outcome.Success? ==>
              r.hook == MacHook(h.state.(thresholdMs := thresholdMs), true, true)
    // only the threshold and the thread handles can change
    ensures r.hook.MacHook? <==> h.MacHook?
    ensures h.MacHook? ==> r.hook.state.blocked == h.state.blocked && r.hook.state.lastClick == h.state.lastClick
  {
    match h
    case UnsupportedHook => HookStep(Failure(Unsupported), h)
    case MacHook(state, hasWorker, hasStopper) =>
      if hasWorker then HookStep(Failure(AlreadyRunning), h)
      else if !env.permissionGranted then HookStep(Failure(Platform(PermissionMessage)), h)
      else
        var stored := h.(state := state.(thresholdMs := thresholdMs));
        if env.readiness == Ready then HookStep(Success(()), stored.(hasWorker := true, hasStopper := true))
        else HookStep(Failure(Platform(InitFailedMessage)), stored)
  }

  /** `stop`: signal the tap thread and join it. */
  function Stop(h: Hook): (r: HookStep)
    ensures h.UnsupportedHook? ==> r == HookStep(Failure(Unsupported), h)
    ensures h.MacHook? ==> r.outcome.Success?
    ensures h.MacHook? ==> r.hook == MacHook(h.state, false, false)
  {
    match h
    case UnsupportedHook => HookStep(Failure(Unsupported), h)
    case MacHook(state, _, _) => HookStep(Success(()), MacHook(state, false, false))
  }

  /** `set_threshold`: takes effect on the next evaluated event. */
  function SetThreshold(h: Hook, thresholdMs: nat): (r: HookStep)
    ensures h.UnsupportedHook? ==> r == HookStep(Failure(Unsupported), h)
    ensures h.MacHook? ==>
              r.outcome.Success? && r.hook == h.(state := h.state.(thresholdMs := thresholdMs))
  {
    match h
    case UnsupportedHook => HookStep(Failure(Unsupported), h)
    case MacHook(state, _, _) => HookStep(Success(()), h.(state := state.(thresholdMs := thresholdMs)))
  }

  /** `blocked_clicks`: the live counter; always zero for the stand-in. */
  function BlockedClicks(h: Hook): (n: nat)
    ensures h.UnsupportedHook? ==> n == 0
    ensures h.MacHook? ==> n == h.state.blocked
  {
    match h
    case UnsupportedHook => 0
    case MacHook(state, _, _) => state.blocked
  }

  /** The `click_blocked` deltas a callback emitted; none when no callback ran. */
  function Notices(c: Option<Callback>): (ds: seq<nat>)
  {
    if c.Some? then c.value.emitted else []
  }

  /**
    One event reaching the hook. While the tap is installed the callback
    runs and decides; otherwise no callback runs and the event is
    delivered untouched.
   */
  function Deliver(h: Hook, ty: nat, now: nat, lockOk: bool): (r: (Option<Callback>, Hook))
    ensures r.0.Some? <==> TapInstalled(h)
    ensures !TapInstalled(h) ==> r.1 == h
    ensures TapInstalled(h) ==>
              r.0 == Some(TapCallback(h.state, ty, now, lockOk)) && r.1 == h.(state := r.0.value.next)
    ensures BlockedClicks(r.1) == BlockedClicks(h) + |Notices(r.0)|
  {
    if TapInstalled(h) then
      var c := TapCallback(h.state, ty, now, lockOk);
      (Some(c), h.(state := c.next))
    else (None, h)
  }

  /** The worker thread and its stop channel are kept or dropped together. */
  predicate Paired(h: Hook)
  {
    h.MacHook? ==> h.hasWorker == h.hasStopper
  }

  /** Every `HookControl` operation keeps the pairing, on both implementations. */
  lemma PairedPreserved(h: Hook, t: nat, env: StartEnv, ty: nat, now: nat, lockOk: bool)
    requires Paired(h)
    ensures Paired(Start(h, t, env).hook)
    ensures Paired(Stop(h).hook)
    ensures Paired(SetThreshold(h, t).hook)
    ensures Paired(Deliver(h, ty, now, lockOk).1)
  {
  }

  /** A failed start on a paired hook leaves no tap installed and no stop channel. */
  lemma FailedStartLeavesNothing(h: Hook, t: nat, env: StartEnv)
    requires Paired(h) && !TapInstalled(h)
    requires Start(h, t, env).outcome.Failure?
    ensures !TapInstalled(Start(h, t, env).hook)
    ensures Start(h, t, env).hook.MacHook? ==> !Start(h, t, env).hook.hasStopper
  {
  }

  /** `stop` twice is the same as once. */
  lemma StopIdempotent(h: Hook)
    ensures Stop(Stop(h).hook) == Stop(h)
  {
  }

  /**
    Start followed by stop returns a fresh macOS hook to where it was, with
    only the threshold moved to the requested value.
   */
  lemma StartStopRoundTrip(h: Hook, t: nat, env: StartEnv)
    requires Start(h, t, env).outcome.Success?
    requires !h.hasStopper
    ensures Stop(Start(h, t, env).hook).hook == h.(state := h.state.(thresholdMs := t))
  {
  }

  /** The unsupported stand-in refuses every operation and reports zero. */
  lemma UnsupportedRefusesAll(t: nat, env: StartEnv, ty: nat, now: nat, lockOk: bool)
    ensures New(OtherPlatform) == Failure(Unsupported)
    ensures Start(UnsupportedHook, t, env).outcome == Failure(Unsupported)
    ensures Stop(UnsupportedHook).outcome == Failure(Unsupported)
    ensures SetThreshold(UnsupportedHook, t).outcome == Failure(Unsupported)
    ensures BlockedClicks(UnsupportedHook) == 0
    ensures Deliver(UnsupportedHook, ty, now, lockOk).0.None?
  {
  }
}

=== FILE: service.dfy ===
/**
  `MouseFilterService`, the process-wide owner of the current hook. Every
  operation runs with the service mutex held, so each is a pure transition
  from one service state to the next.
 */
module FilterService {
  import opened Wrappers
  import opened FilterTypes
  import opened Debounce
  import Hook

  /**
    The service state. `hasHandle` records whether an application handle
    (the notification target) was ever attached; `blockedClicks` is the
    baseline captured at the last stop; `platform` is the build target.
   */
  datatype Service = Service(
    platform: Hook.Platform,
    hasHandle: bool,
    hook: Option<Hook.Hook>,
    running: bool,
    thresholdMs: nat,
    blockedClicks: nat)

  /** A service operation's result together with the state it leaves. */
  datatype ServiceStep = ServiceStep(outcome: Outcome, service: Service)

  /** `MouseFilterService::default`. */
  function Default(p: Hook.Platform): (svc: Service)
    ensures Snapshot(svc) == DefaultStatus
    ensures svc.platform == p && !svc.hasHandle && svc.hook.None?
  {
    Service(p, false, None, false, DefaultThresholdMs, 0)
  }

  /** `attach_handle`: the handle is replaced, nothing else changes. */
  function AttachHandle(svc: Service): (r: Service)
    ensures r.hasHandle && r == svc.(hasHandle := true)
  {
    svc.(hasHandle := true)
  }

  /**
    `start`. While running it reconfigures the live hook; while stopped it
    needs a handle, builds a fresh hook and starts it.
   */
  function Start(svc: Service, thresholdMs: nat, env: Hook.StartEnv): (r: ServiceStep)
    // reconfiguration keeps the hook (and with it the live counter)
    ensures svc.running && svc.hook.Some? && svc.hook.value.MacHook? ==>
              && r.outcome.Success?
              && r.service == svc.(thresholdMs := thresholdMs,
                                   hook := Some(Hook.SetThreshold(svc.hook.value, thresholdMs).hook))
    ensures svc.running && svc.hook.None? ==>
              r == ServiceStep(Success(()), svc.(thresholdMs := thresholdMs))
    // the failure paths of a fresh start change nothing
    ensures !svc.running && !svc.hasHandle ==> r == ServiceStep(Failure(ServiceUnavailable), svc)
    ensures !svc.running && svc.hasHandle && svc.platform == Hook.OtherPlatform ==>
              r == ServiceStep(Failure(Unsupported), svc)
    // otherwise the new hook's own error is returned
    ensures !svc.running && svc.hasHandle && svc.platform == Hook.MacOS && !env.permissionGranted ==>
              r.outcome == Failure(Platform(Hook.PermissionMessage))
    ensures !svc.running && svc.hasHandle && svc.platform == Hook.MacOS && env.permissionGranted
            && env.readiness != Hook.Ready ==>
              r.outcome == Failure(Platform(Hook.InitFailedMessage))
    ensures !svc.running && r.outcome.Failure? ==> r.service == svc
    // a fresh start succeeds exactly when the new hook's start does
    ensures !svc.running ==>
              (r.outcome.Success? <==>
                 svc.hasHandle && svc.platform == Hook.MacOS && env.permissionGranted && env.readiness == Hook.Ready)
    ensures !svc.running && r.outcome.Success? ==>
              && r.service.running
              && r.service.thresholdMs == thresholdMs
              && r.service.blockedClicks == 0
              && r.service.hook == Some(Hook.MacHook(HookState(thresholdMs, 0, None), true, true))
              && Snapshot(r.service) == FilterStatus(true, thresholdMs, 0)
    ensures r.service.platform == svc.platform && r.service.hasHandle == svc.hasHandle
  {
    if svc.running then
      match svc.hook
      case Some(h) =>
        var step := Hook.SetThreshold(h, thresholdMs);
        if step.outcome.Failure? then ServiceStep(step.outcome, svc)
        else ServiceStep(Success(()), svc.(hook := Some(step.hook), thresholdMs := thresholdMs))
      case None => ServiceStep(Success(()), svc.(thresholdMs := thresholdMs))
    else if !svc.hasHandle then ServiceStep(Failure(ServiceUnavailable), svc)
    else
      match Hook.New(svc.platform)
      case Failure(e) => ServiceStep(Failure(e), svc)
      case Success(created) =>
        var step := Hook.Start(created, thresholdMs, env);
        if step.outcome.Failure? then ServiceStep(step.outcome, svc)
        else ServiceStep(Success(()), svc.(thresholdMs := thresholdMs, running := true,
                                           blockedClicks := 0, hook := Some(step.hook)))
  }

  /**
    `stop`. The hook is taken out before it is stopped, so a failing
    `stop` loses the hook while `running` stays set.
   */
  function Stop(svc: Service): (r: ServiceStep)
    ensures !svc.running ==> r == ServiceStep(Failure(NotRunning), svc)
    ensures svc.running && svc.hook.None? ==> r == ServiceStep(Success(()), svc.(running := false))
    ensures svc.running && svc.hook.Some? && svc.hook.value.MacHook? ==>
              && r.outcome.Success?
              && r.service == svc.(hook := None, running := false, blockedClicks := svc.hook.value.state.blocked)
    ensures svc.running && svc.hook.Some? && svc.hook.value.UnsupportedHook? ==>
              r == ServiceStep(Failure(Unsupported), svc.(hook := None))
    ensures r.service.thresholdMs == svc.thresholdMs && r.service.hasHandle == svc.hasHandle
  {
    if !svc.running then ServiceStep(Failure(NotRunning), svc)
    else
      match svc.hook
      case None => ServiceStep(Success(()), svc.(running := false))
      case Some(h) =>
        var taken := svc.(hook := None);
        var step := Hook.Stop(h);
        if step.outcome.Failure? then ServiceStep(step.outcome, taken)
        else ServiceStep(Success(()), taken.(running := false, blockedClicks := Hook.BlockedClicks(step.hook)))
  }

  /**
    `update_threshold`: the threshold is remembered first, then forwarded
    to the hook only while running.
   */
  function UpdateThreshold(svc: Service, thresholdMs: nat): (r: ServiceStep)
    ensures r.service.thresholdMs == thresholdMs
    ensures r.service.running == svc.running && r.service.blockedClicks == svc.blockedClicks
    ensures r.service.platform == svc.platform && r.service.hasHandle == svc.hasHandle
    ensures !svc.running ==> r == ServiceStep(Success(()), svc.(thresholdMs := thresholdMs))
    ensures svc.running && svc.hook.Some? && svc.hook.value.MacHook? ==>
              && r.outcome.Success?
              && r.service.hook == Some(svc.hook.value.(state := svc.hook.value.state.(thresholdMs := thresholdMs)))
    ensures r.outcome.Failure? ==> r.outcome == Failure(Unsupported) && r.service.hook == svc.hook
  {
    var remembered := svc.(thresholdMs := thresholdMs);
    if svc.running then
      match svc.hook
      case Some(h) =>
        var step := Hook.SetThreshold(h, thresholdMs);
        if step.outcome.Failure? then ServiceStep(step.outcome, remembered)
        else ServiceStep(Success(()), remembered.(hook := Some(step.hook)))
      case None => ServiceStep(Success(()), remembered)
    else ServiceStep(Success(()), remembered)
  }

  /**
    `snapshot`: running flag and threshold as stored; the live hook counter
    while running with a hook, the captured baseline otherwise.
   */
  function Snapshot(svc: Service): (st: FilterStatus)
    ensures st.running == svc.running && st.thresholdMs == svc.thresholdMs
    ensures svc.running && svc.hook.Some? ==> st.blockedClicks == Hook.BlockedClicks(svc.hook.value)
    ensures !(svc.running && svc.hook.Some?) ==> st.blockedClicks == svc.blockedClicks
  {
    var blocked :=
      if svc.running then
        match svc.hook
        case Some(h) => Hook.BlockedClicks(h)
        case None => svc.blockedClicks
      else svc.blockedClicks;
    FilterStatus(svc.running, svc.thresholdMs, blocked)
  }

  /**
    One event reaching the live hook's tap. The tap callback runs on its
    own thread and touches only the hook's shared state, never the
    service's own fields.
   */
  function Deliver(svc: Service, ty: nat, now: nat, lockOk: bool): (r: (Option<Callback>, Service))
    ensures svc.hook.None? ==> r == (None, svc)
    ensures r.0.Some? <==> svc.hook.Some? && Hook.TapInstalled(svc.hook.value)
    ensures r.0.Some? ==> r.0.value == TapCallback(svc.hook.value.state, ty, now, lockOk)
    ensures r.0.Some? ==> r.1.hook == Some(svc.hook.value.(state := r.0.value.next))
    ensures r.0.None? ==> r.1 == svc
    ensures r.1 == svc.(hook := r.1.hook)
    ensures svc.running ==> Snapshot(r.1).blockedClicks == Snapshot(svc).blockedClicks + |Hook.Notices(r.0)|
  {
    match svc.hook
    case None => (None, svc)
    case Some(h) =>
      var (c, h') := Hook.Deliver(h, ty, now, lockOk);
      (c, svc.(hook := Some(h')))
  }
}

=== FILE: service_api.dfy ===
/**
  The public entry points that take the global service mutex, and the
  outward notifications they and the tap callback emit, kept as an
  append-only log. Whether the mutex could be taken is an input of each
  call.
 */
module FilterApi {
  import opened Wrappers
  import opened FilterTypes
  import opened Debounce
  import Hook
  import opened FilterService

  /** An outward notification: `filter_status_changed` or `click_blocked`. */
  datatype Emission = StatusChanged(status: FilterStatus) | ClickBlocked(deltaMs: nat)

  /** The singleton service together with everything emitted so far. */
  datatype System = System(service: Service, log: seq<Emission>)

  /** A public call's result together with the system it leaves. */
  datatype ApiStep = ApiStep(result: Result<FilterStatus, FilterError>, system: System)

  /** The lazily created singleton before any call. */
  function Boot(p: Hook.Platform): (sys: System)
    ensures sys.log == [] && Snapshot(sys.service) == DefaultStatus
    ensures sys.service.platform == p && Inv(sys.service)
  {
    System(Default(p), [])
  }

  /** `emit_status`: only a service that holds a handle can emit. */
  function EmitStatus(svc: Service, log: seq<Emission>): (r: seq<Emission>)
    ensures svc.hasHandle ==> r == log + [StatusChanged(Snapshot(svc))]
    ensures !svc.hasHandle ==> r == log
  {
    if svc.hasHandle then log + [StatusChanged(Snapshot(svc))] else log
  }

  /**
    The common tail of the mutating entry points: an error returns before
    anything is emitted; success returns the fresh snapshot and emits it.
   */
  function Finish(step: ServiceStep, log: seq<Emission>): (r: ApiStep)
    ensures r.system.service == step.service
    ensures step.outcome.Failure? ==> r == ApiStep(Failure(step.outcome.error), System(step.service, log))
    ensures step.outcome.Success? ==>
              && r.result == Success(Snapshot(step.service))
              && r.system.log == EmitStatus(step.service, log)
  {
    match step.outcome
    case Failure(e) => ApiStep(Failure(e), System(step.service, log))
    case Success(_) => ApiStep(Success(Snapshot(step.service)), System(step.service, EmitStatus(step.service, log)))
  }

  /** Public `start`: attaches the handle, then starts or reconfigures. */
  function PublicStart(sys: System, lockOk: bool, thresholdMs: nat, env: Hook.StartEnv): (r: ApiStep)
    ensures !lockOk ==> r == ApiStep(Failure(ServiceUnavailable), sys)
    ensures lockOk ==>
              r.system.service == FilterService.Start(AttachHandle(sys.service), thresholdMs, env).service
    // the service start's outcome reaches the caller unchanged
    ensures lockOk ==>
              var step := FilterService.Start(AttachHandle(sys.service), thresholdMs, env);
              && (r.result.Success? <==> step.outcome.Success?)
              && (step.outcome.Failure? ==> r.result == Failure(step.outcome.error))
    ensures r.result.Failure? ==> r.system.log == sys.log
    ensures r.result.Success? ==>
              && r.result.value == Snapshot(r.system.service)
              && r.result.value.running
              && r.result.value.thresholdMs == thresholdMs
              && r.system.log == sys.log + [StatusChanged(r.result.value)]
  {
    if !lockOk then ApiStep(Failure(ServiceUnavailable), sys)
    else Finish(FilterService.Start(AttachHandle(sys.service), thresholdMs, env), sys.log)
  }

  /** Public `stop`: attaches the handle, then stops. */
  function PublicStop(sys: System, lockOk: bool): (r: ApiStep)
    ensures !lockOk ==> r == ApiStep(Failure(ServiceUnavailable), sys)
    ensures lockOk ==> r.system.service == FilterService.Stop(AttachHandle(sys.service)).service
    ensures lockOk ==>
              var step := FilterService.Stop(AttachHandle(sys.service));
              && (r.result.Success? <==> step.outcome.Success?)
              && (step.outcome.Failure? ==> r.result == Failure(step.outcome.error))
    ensures r.result.Failure? ==> r.system.log == sys.log
    ensures r.result.Success? ==>
              && r.result.value == Snapshot(r.system.service)
              && !r.result.value.running
              && r.system.log == sys.log + [StatusChanged(r.result.value)]
  {
    if !lockOk then ApiStep(Failure(ServiceUnavailable), sys)
    else Finish(FilterService.Stop(AttachHandle(sys.service)), sys.log)
  }

  /**
    Public `update_threshold`: no handle is attached here, so a service
    that was never started or stopped emits nothing.
   */
  function PublicUpdateThreshold(sys: System, lockOk: bool, thresholdMs: nat): (r: ApiStep)
    ensures !lockOk ==> r == ApiStep(Failure(ServiceUnavailable), sys)
    ensures lockOk ==> r.system.service == FilterService.UpdateThreshold(sys.service, thresholdMs).service
    ensures lockOk ==>
              var step := FilterService.UpdateThreshold(sys.service, thresholdMs);
              && (r.result.Success? <==> step.outcome.Success?)
              && (step.outcome.Failure? ==> r.result == Failure(step.outcome.error))
    ensures r.result.Failure? ==> r.system.log == sys.log
    ensures r.result.Success? ==>
              && r.result.value == Snapshot(r.system.service)
              && r.result.value.thresholdMs == thresholdMs
              && r.system.log == (if sys.service.hasHandle then sys.log + [StatusChanged(r.result.value)] else sys.log)
  {
    if !lockOk then ApiStep(Failure(ServiceUnavailable), sys)
    else Finish(FilterService.UpdateThreshold(sys.service, thresholdMs), sys.log)
  }

  /** Public `status`: never fails; falls back to the default status. */
  function PublicStatus(sys: System, lockOk: bool): (st: FilterStatus)
    ensures !lockOk ==> st == FilterStatus(false, 100, 0)
    ensures lockOk ==> st == Snapshot(sys.service)
  {
    if lockOk then Snapshot(sys.service) else DefaultStatus
  }

  /** The `click_blocked` notifications for the given deltas. */
  function BlockedNotices(deltas: seq<nat>): (r: seq<Emission>)
    ensures |r| == |deltas|
    ensures forall i :: 0 <= i < |deltas| ==> r[i] == ClickBlocked(deltas[i])
  {
    if |deltas| == 0 then [] else [ClickBlocked(deltas[0])] + BlockedNotices(deltas[1..])
  }

  /** One event reaching the system; a blocked one is announced. */
  function DeliverEvent(sys: System, ty: nat, now: nat, lockOk: bool): (r: System)
    ensures r.service == FilterService.Deliver(sys.service, ty, now, lockOk).1
    ensures |sys.log| <= |r.log| <= |sys.log| + 1 && r.log[..|sys.log|] == sys.log
    ensures var c := FilterService.Deliver(sys.service, ty, now, lockOk).0;
            if c.Some? && c.value.result == Suppress
            then r.log == sys.log + [ClickBlocked(DeltaMs(sys.service.hook.value.state.lastClick.value, now))]
            else r.log == sys.log
  {
    var (c, svc) := FilterService.Deliver(sys.service, ty, now, lockOk);
    System(svc, sys.log + BlockedNotices(Hook.Notices(c)))
  }

  /** Everything that can happen to the system, in the order it happens. */
  datatype Op =
    | StartOp(lockOk: bool, thresholdMs: nat, env: Hook.StartEnv)
    | StopOp(lockOk: bool)
    | UpdateOp(lockOk: bool, thresholdMs: nat)
    | EventOp(ty: nat, at: nat, clickLockOk: bool)

  function Apply(sys: System, op: Op): (r: System)
  {
    match op
    case StartOp(lockOk, t, env) => PublicStart(sys, lockOk, t, env).system
    case StopOp(lockOk) => PublicStop(sys, lockOk).system
    case UpdateOp(lockOk, t) => PublicUpdateThreshold(sys, lockOk, t).system
    case EventOp(ty, at, lockOk) => DeliverEvent(sys, ty, at, lockOk)
  }

  function Exec(sys: System, ops: seq<Op>): (r: System)
    decreases |ops|
  {
    if |ops| == 0 then sys else Exec(Apply(sys, ops[0]), ops[1..])
  }

  /**
    What holds of every reachable service: without macOS nothing ever runs
    and nothing is counted; on macOS a hook is held exactly while running,
    its tap thread is live, and its threshold is the remembered one.
   */
  predicate Inv(svc: Service)
  {
    && (svc.running ==> svc.hasHandle)
    && (svc.platform == Hook.OtherPlatform ==> !svc.running && svc.hook.None? && svc.blockedClicks == 0)
    && (svc.platform == Hook.MacOS ==>
          && (svc.running <==> svc.hook.Some?)
          && (svc.hook.Some? ==>
                && svc.hook.value.MacHook?
                && svc.hook.value.hasWorker && svc.hook.value.hasStopper
                && svc.hook.value.state.thresholdMs == svc.thresholdMs))
  }

  lemma InvPreserved(sys: System, op: Op)
    requires Inv(sys.service)
    ensures Inv(Apply(sys, op).service)
    ensures Apply(sys, op).service.platform == sys.service.platform
  {
  }

  /** Every state reachable from boot satisfies the invariant; the log only grows. */
  lemma {:induction false} ExecPreservesInv(sys: System, ops: seq<Op>)
    requires Inv(sys.service)
    ensures Inv(Exec(sys, ops).service)
    ensures Exec(sys, ops).service.platform == sys.service.platform
    ensures |sys.log| <= |Exec(sys, ops).log| && Exec(sys, ops).log[..|sys.log|] == sys.log
    decreases |ops|
  {
    if |ops| > 0 {
      var next := Apply(sys, ops[0]);
      InvPreserved(sys, ops[0]);
      LogGrows(sys, ops[0]);
      ExecPreservesInv(next, ops[1..]);
      assert sys.log == next.log[..|sys.log|];
      assert Exec(next, ops[1..]).log[..|next.log|][..|sys.log|] == Exec(next, ops[1..]).log[..|sys.log|];
    }
  }

  /** A single step never rewrites what was already emitted. */
  lemma LogGrows(sys: System, op: Op)
    ensures |sys.log| <= |Apply(sys, op).log| && Apply(sys, op).log[..|sys.log|] == sys.log
  {
  }

  /**
    Without macOS, start always reports `Unsupported` once the mutex is
    held, and every status afterwards shows a stopped filter with zero
    blocked clicks.
   */
  lemma UnsupportedNeverRuns(ops: seq<Op>, t: nat, env: Hook.StartEnv)
    ensures PublicStart(Exec(Boot(Hook.OtherPlatform), ops), true, t, env).result == Failure(Unsupported)
    ensures !PublicStatus(Exec(Boot(Hook.OtherPlatform), ops), true).running
    ensures PublicStatus(Exec(Boot(Hook.OtherPlatform), ops), true).blockedClicks == 0
  {
    ExecPreservesInv(Boot(Hook.OtherPlatform), ops);
  }

  /** Start while running only retunes the live hook: same counter, no new hook. */
  lemma RestartReconfigures(sys: System, t: nat, env: Hook.StartEnv)
    requires Inv(sys.service) && sys.service.running
    ensures PublicStart(sys, true, t, env).result ==
              Success(FilterStatus(true, t, Snapshot(sys.service).blockedClicks))
    ensures PublicStart(sys, true, t, env).system.service.hook ==
              Some(sys.service.hook.value.(state := sys.service.hook.value.state.(thresholdMs := t)))
  {
  }

  /** Stop while running keeps the count: the live counter becomes the baseline. */
  lemma StopCapturesCount(sys: System)
    requires Inv(sys.service) && sys.service.running
    ensures PublicStop(sys, true).result ==
              Success(FilterStatus(false, sys.service.thresholdMs, Snapshot(sys.service).blockedClicks))
  {
  }

  /** Stop while stopped fails and leaves the reported status unchanged. */
  lemma StopWhenStoppedChangesNothing(sys: System)
    requires !sys.service.running
    ensures PublicStop(sys, true).result == Failure(NotRunning)
    ensures PublicStop(sys, true).system.log == sys.log
    ensures Snapshot(PublicStop(sys, true).system.service) == Snapshot(sys.service)
  {
  }

  /** While stopped, an update changes only the remembered threshold. */
  lemma StoppedUpdateOnlyThreshold(sys: System, t: nat)
    requires !sys.service.running
    ensures PublicUpdateThreshold(sys, true, t).system.service == sys.service.(thresholdMs := t)
    ensures PublicStatus(PublicUpdateThreshold(sys, true, t).system, true) ==
              Snapshot(sys.service).(thresholdMs := t)
  {
  }

  /** While running, each delivered event raises the reported count by the notices it emits. */
  lemma ClickCountsOnce(sys: System, ty: nat, now: nat, lockOk: bool)
    requires sys.service.running
    ensures Snapshot(DeliverEvent(sys, ty, now, lockOk).service).blockedClicks ==
              Snapshot(sys.service).blockedClicks + (|DeliverEvent(sys, ty, now, lockOk).log| - |sys.log|)
  {
  }

  /** A start that takes the mutex and succeeds while the filter is stopped: the only step that resets the count. */
  predicate FreshStart(sys: System, op: Op)
  {
    op.StartOp? && op.lockOk && !sys.service.running
    && PublicStart(sys, true, op.thresholdMs, op.env).result.Success?
  }

  /** No step of `ops`, run from `sys`, is a successful fresh start. */
  predicate NoFreshStart(sys: System, ops: seq<Op>)
    decreases |ops|
  {
    |ops| == 0 || (!FreshStart(sys, ops[0]) && NoFreshStart(Apply(sys, ops[0]), ops[1..]))
  }

  /** Apart from a successful fresh start, no step lowers the reported blocked-click count. */
  lemma CountNeverDrops(sys: System, op: Op)
    requires Inv(sys.service)
    requires !FreshStart(sys, op)
    ensures Snapshot(Apply(sys, op).service).blockedClicks >= Snapshot(sys.service).blockedClicks
  {
  }

  /** Over any history without a successful fresh start, the reported count never drops. */
  lemma {:induction false} CountNeverDropsExec(sys: System, ops: seq<Op>)
    requires Inv(sys.service)
    requires NoFreshStart(sys, ops)
    ensures Snapshot(Exec(sys, ops).service).blockedClicks >= Snapshot(sys.service).blockedClicks
    decreases |ops|
  {
    if |ops| > 0 {
      CountNeverDrops(sys, ops[0]);
      InvPreserved(sys, ops[0]);
      CountNeverDropsExec(Apply(sys, ops[0]), ops[1..]);
    }
  }

  /** A press of the left button at `ms` milliseconds. */
  function Click(ms: nat): Op
  {
    EventOp(LeftMouseDown, ms * NanosPerMs, true)
  }

  /** The service holding a live tap with the given shared state. */
  predicate LiveWith(svc: Service, st: HookState)
  {
    svc.hook == Some(Hook.MacHook(st, true, true))
  }

  /** A click inside the window is counted, announced and keeps the reference. */
  lemma BlockedClickStep(sys: System, st: HookState, ms: nat)
    requires LiveWith(sys.service, st) && InWindow(st.thresholdMs, st.lastClick, ms * NanosPerMs)
    ensures LiveWith(Apply(sys, Click(ms)).service, st.(blocked := st.blocked + 1))
    ensures Apply(sys, Click(ms)).service == sys.service.(hook := Apply(sys, Click(ms)).service.hook)
    ensures Apply(sys, Click(ms)).log == sys.log + [ClickBlocked(DeltaMs(st.lastClick.value, ms * NanosPerMs))]
  {
  }

  /** A click outside the window passes and becomes the reference. */
  lemma AllowedClickStep(sys: System, st: HookState, ms: nat)
    requires LiveWith(sys.service, st) && !InWindow(st.thresholdMs, st.lastClick, ms * NanosPerMs)
    ensures LiveWith(Apply(sys, Click(ms)).service, st.(lastClick := Some(ms * NanosPerMs)))
    ensures Apply(sys, Click(ms)).service == sys.service.(hook := Apply(sys, Click(ms)).service.hook)
    ensures Apply(sys, Click(ms)).log == sys.log
  {
  }

  /** A start at the default 100 ms threshold, with the mutex taken, permission granted and the tap ready. */
  const StartAtDefault: Op := StartOp(true, 100, Hook.StartEnv(true, Hook.Ready))

  /** A fresh start on macOS with permission and a ready tap. */
  lemma FreshStartStep(sys: System)
    requires sys.service.platform == Hook.MacOS && !sys.service.running
    ensures Apply(sys, StartAtDefault) ==
              System(sys.service.(hasHandle := true, running := true, thresholdMs := 100, blockedClicks := 0,
                                  hook := Some(Hook.MacHook(HookState(100, 0, None), true, true))),
                     sys.log + [StatusChanged(FilterStatus(true, 100, 0))])
  {
  }

  /** Stopping a live tap captures its counter and announces the stopped status. */
  lemma StopStep(sys: System, st: HookState)
    requires LiveWith(sys.service, st) && sys.service.running && sys.service.hasHandle
    ensures Apply(sys, StopOp(true)) ==
              System(sys.service.(hook := None, running := false, blockedClicks := st.blocked),
                     sys.log + [StatusChanged(FilterStatus(false, sys.service.thresholdMs, st.blocked))])
  {
  }

  /** Running a concatenation runs its halves one after the other. */
  lemma {:induction false} ExecAppend(sys: System, a: seq<Op>, b: seq<Op>)
    ensures Exec(sys, a + b) == Exec(Exec(sys, a), b)
    decreases |a|
  {
    if |a| > 0 {
      assert (a + b)[0] == a[0];
      assert (a + b)[1..] == a[1..] + b;
      ExecAppend(Apply(sys, a[0]), a[1..], b);
    } else {
      assert a + b == b;
    }
  }

  /** A fresh start at 100 ms, a click at `b` ms, three repeats 10 ms apart, stop. */
  function FirstRun(b: nat): seq<Op>
  {
    [StartAtDefault, Click(b), Click(b + 10), Click(b + 20), Click(b + 30), StopOp(true)]
  }

  /** A second start, a click at `b` ms, two repeats 10 ms apart, stop. */
  function SecondRun(b: nat): seq<Op>
  {
    [StartAtDefault, Click(b), Click(b + 10), Click(b + 20), StopOp(true)]
  }

  /** The delta of a click `d` ms after a reference at `b` ms. */
  lemma DeltaAfter(b: nat, d: nat)
    requires d < 1000
    ensures DeltaMs(b * NanosPerMs, (b + d) * NanosPerMs) == d
  {
    assert (b + d) * NanosPerMs - b * NanosPerMs == d * NanosPerMs;
    assert ElapsedNanos(b * NanosPerMs, (b + d) * NanosPerMs) / 1000 == d * 1000;
  }

  /** The first run from boot ends stopped with 3 captured blocked clicks. */
  lemma FirstRunEffect(b: nat)
    ensures Exec(Boot(Hook.MacOS), FirstRun(b)) ==
              System(Service(Hook.MacOS, true, None, false, 100, 3),
                     [ StatusChanged(FilterStatus(true, 100, 0)),
                       ClickBlocked(10), ClickBlocked(20), ClickBlocked(30),
                       StatusChanged(FilterStatus(false, 100, 3)) ])
  {
    var ops := FirstRun(b);
    var s0 := Boot(Hook.MacOS);
    var s1 := Apply(s0, StartAtDefault);
    FreshStartStep(s0);
    var s2 := Apply(s1, Click(b));
    AllowedClickStep(s1, HookState(100, 0, None), b);
    var s3 := Apply(s2, Click(b + 10));
    DeltaAfter(b, 10);
    BlockedClickStep(s2, HookState(100, 0, Some(b * NanosPerMs)), b + 10);
    var s4 := Apply(s3, Click(b + 20));
    DeltaAfter(b, 20);
    BlockedClickStep(s3, HookState(100, 1, Some(b * NanosPerMs)), b + 20);
    var s5 := Apply(s4, Click(b + 30));
    DeltaAfter(b, 30);
    BlockedClickStep(s4, HookState(100, 2, Some(b * NanosPerMs)), b + 30);
    var s6 := Apply(s5, StopOp(true));
    StopStep(s5, HookState(100, 3, Some(b * NanosPerMs)));
    var states := [s0, s1, s2, s3, s4, s5, s6];
    var k := |ops|;
    while k > 0
      invariant 0 <= k <= |ops|
      invariant Exec(states[k], ops[k..]) == s6
    {
      k := k - 1;
      assert ops[k..][1..] == ops[k + 1..];
      assert states[k + 1] == Apply(states[k], ops[k]);
    }
  }

  /** The second run restarts the count from zero and captures 2 at its stop. */
  lemma SecondRunEffect(sys: System, b: nat)
    requires sys.service == Service(Hook.MacOS, true, None, false, 100, 3)
    ensures Exec(sys, SecondRun(b)) ==
              System(Service(Hook.MacOS, true, None, false, 100, 2),
                     sys.log + [ StatusChanged(FilterStatus(true, 100, 0)),
                                 ClickBlocked(10), ClickBlocked(20),
                                 StatusChanged(FilterStatus(false, 100, 2)) ])
  {
    var ops := SecondRun(b);
    var s0 := sys;
    var s1 := Apply(s0, StartAtDefault);
    FreshStartStep(s0);
    var s2 := Apply(s1, Click(b));
    AllowedClickStep(s1, HookState(100, 0, None), b);
    var s3 := Apply(s2, Click(b + 10));
    DeltaAfter(b, 10);
    BlockedClickStep(s2, HookState(100, 0, Some(b * NanosPerMs)), b + 10);
    var s4 := Apply(s3, Click(b + 20));
    DeltaAfter(b, 20);
    BlockedClickStep(s3, HookState(100, 1, Some(b * NanosPerMs)), b + 20);
    var s5 := Apply(s4, StopOp(true));
    StopStep(s4, HookState(100, 2, Some(b * NanosPerMs)));
    var states := [s0, s1, s2, s3, s4, s5];
    var k := |ops|;
    while k > 0
      invariant 0 <= k <= |ops|
      invariant Exec(states[k], ops[k..]) == s5
    {
      k := k - 1;
      assert ops[k..][1..] == ops[k + 1..];
      assert states[k + 1] == Apply(states[k], ops[k]);
    }
  }

  /**
    Counter continuity across two running intervals: the first stop reports
    3, the restart reports 0, the second stop reports 2, whatever instants
    the two bursts happen at.
   */
  lemma CounterContinuity(b1: nat, b2: nat)
    ensures Exec(Boot(Hook.MacOS), FirstRun(b1) + SecondRun(b2)).log ==
              [ StatusChanged(FilterStatus(true, 100, 0)),
                ClickBlocked(10), ClickBlocked(20), ClickBlocked(30),
                StatusChanged(FilterStatus(false, 100, 3)),
                StatusChanged(FilterStatus(true, 100, 0)),
                ClickBlocked(10), ClickBlocked(20),
                StatusChanged(FilterStatus(false, 100, 2)) ]
  {
    ExecAppend(Boot(Hook.MacOS), FirstRun(b1), SecondRun(b2));
    FirstRunEffect(b1);
    SecondRunEffect(Exec(Boot(Hook.MacOS), FirstRun(b1)), b2);
  }
}

=== FILE: wrappers.dfy ===
/** Rust's `Option` and `Result` as plain datatypes, shared by every module of the model. */
module Wrappers {

  /** Rust's `Option<T>`. */
  datatype Option<+T> = None | Some(value: T)

  /** Rust's `Result<T, E>`. */
  datatype Result<+T, +E> = Success(value: T) | Failure(error: E)
}
